=== FILE: README.md ===
# CounterMarket salary logic in Dafny

CounterMarket is a salary-comparison service. A Flask back end answers "how
does my salary compare?" and "write me a negotiation script", and a React
client displays the answers. This project models the pure decision and
arithmetic logic of that service, and proves properties about it:

- **Company lookup** (`Companies`). The 75-entry `COMPANY_SALARY_DATA`
  table and `get_company_data`. A name is lower-cased and stripped. An
  exact key wins. Otherwise the first entry whose key or display name
  partially matches the name is chosen.
- **Percentile interpolation** (`Percentiles`). `calculate_percentile_position`
  is used for negotiation scripts. It truncates its result with `int()`,
  and its top band divides by the 90th percentile without a guard. The
  company-adjusted percentile of `compare_salary` is not truncated, and
  every one of its divisions is guarded.
- **Tier classifiers** (`Bands`). These are the recommendation status, the
  market-position wording of the negotiation script, the fallback advice,
  and the ask justification.
- **`compare_salary`** (`Comparison`). It checks the required fields and
  picks the narrow statistics before the broad ones. It scales the market
  figures by a recognised company's multiplier, and computes the
  percentile, the gap to the median and the recommendation.
- **`generate_negotiation_script`** (`Negotiation`). It builds the
  achievements sentence and computes the increase and gap percentages and
  both percentile positions. It also picks the wording, and holds the
  default market figures.
- **Sample data** (`SampleData`). The experience multiplier and the
  rounding to the nearest thousand used when synthetic submissions are
  generated.
- **Client helpers** (`Frontend`). These are `updateAchievement`, the '+'
  sign and colour of the gap row, the recommendation border, the colour
  of `ResultRow`, and the widths of the distribution bars.

How Python behaviour is modelled:

- Python's `int()` on a float truncates toward zero. This is
  `Percentiles.Trunc`.
- `round()` rounds half to even. `round(x)` is `Rounding.RoundHalfEven`
  and `round(x, 1)` is `Rounding.RoundToTenth`.
- Salaries are exact reals, not IEEE doubles.
- An unguarded division by zero raises `ZeroDivisionError`. It is
  modelled as the `Failure(ZeroDivision)` case of a `Result`.
- The database aggregate and rank queries are not modelled. Their result
  rows are parameters of `Comparison.CompareSalary`.
- Likewise, the market figures are a parameter of
  `Negotiation.NegotiationScript`.

Observations on the code as written:

- **Unreachable fallbacks.** The fallback branches that return the
  constants 37, 62 and 82 in both interpolations are never taken. (The
  value 37 can still come out of the interpolation itself: 80,000 against
  the default figures, `Negotiation.DefaultMarketPositions`.) In `calculate_percentile_position`
  a middle branch is only entered when the salary lies strictly above the
  lower reference point and at or below the upper one; in `compare_salary`
  it is entered when the salary lies at or above the lower point and
  strictly below the upper one. Either way the lower point is below the
  upper one, so the band always has a positive width there.
- **Negative 90th percentile.** The top branch of
  `calculate_percentile_position` divides by the 90th percentile. Against
  a negative one the division flips the sign and the position falls below
  90, even below 1 (`Percentiles.NegativeTopBand`).
- **Gap shown near the median.** The server rounds the gap percentage to
  one decimal place before the client tests its sign. A salary within
  0.05 percent of the median is therefore shown with a gap of 0, flagged
  positive and without a '+', on either side of the median. On exact reals this includes a gap of exactly 0.05 percent, because the tie rounds to the even 0. In doubles a computed 0.05 lies just above 0.05, so the program shows ±0.1 there (100,050 against 100,000 is shown as "+0.1%")
  (`Frontend.GapDisplayMatchesSalary`).
- **Company percentile always in range.** The company percentile lies in
  [1, 99], and in the band of its branch, for *any* figures. No ordering
  of the reference points is needed (`Percentiles.CompanyPercentile`).
- **Whitespace-only company name.** `compare_salary` strips the company
  name before deciding whether one was given. So a whitespace-only name
  means "no company". Called directly, `get_company_data` would instead
  strip it to "", which partially matches every key, and would return the
  first entry, Google (`Comparison.BlankCompanyNameMeansMarket`).
- **Rank of 0 reported as 50.** The market percentile falls back to 50
  when the rank query yields 0, because 0 is falsy in Python. A salary at
  the very bottom of its cohort is therefore reported as median
  (`Comparison.ZeroRankReportedAsMedian`).
- **Senior multiplier.** The experience multiplier's comment gives the
  senior range as ending at 1.40x. The formula gives 1.41 at twelve years,
  and the model follows the formula.

## Model

| member | source | states |
|---|---|---|
| Companies.LookupIn | app.py:134-154 | (`Companies.Lookup` is this lookup on the table as written) a missing (empty) name finds nothing; whatever is found is the record of some table entry |
| Companies.ExactKeyWins | app.py:140-144 | when the normalised name is a key, that entry is returned, even if an earlier entry would partially match |
| Companies.EarliestPartialMatchWins | app.py:146-152 | without an exact key, the first entry in table order whose key or lower-cased display name contains, or is contained in, the normalised name is returned |
| Companies.NoMatchIffNone | app.py:134-154 | the lookup finds nothing exactly when no entry matches exactly or partially |
| Companies.LookupIgnoresCaseAndPadding | app.py:140 | names that differ only in letter case and surrounding whitespace find the same company |
| Companies.LookupOfStripped | app.py:140 | stripping a non-blank name before the lookup changes nothing |
| Companies.BlankNameSelectsFirstEntry | app.py:136-152 | a non-empty, all-whitespace name normalises to "", which partially matches the first entry of any table |
| Companies.BlankNameIsGoogle | app.py:37-39 | for the table as written, such a name yields Google with multiplier 1.45, tier top |
| Percentiles.Trunc | app.py:1126-1127 | the integer conversion truncates toward zero: within 1 of its argument, never further from 0 |
| Percentiles.Scale | app.py:704-709 | multiplying all four reference points by a positive multiplier keeps them well ordered |
| Percentiles.PercentilePosition | app.py:1122-1148 | the position raises exactly when the salary is above all four reference points and the 90th percentile is 0; otherwise the first four branches yield a value in their bands [1,25], [25,50], [50,75], [75,90], and the top branch yields a value in [90,99] when the 90th percentile is positive |
| Percentiles.NegativeTopBand | app.py:1146-1148 | against a negative 90th percentile the top branch is not bounded below: a salary of 100 against figures (-10, -10, -10, -1) gets position -920 |
| Percentiles.PositionBands | app.py:1122-1148 | for well-ordered figures the position never raises, lies in [1,99], and lies in the band of the interval the salary falls in |
| Percentiles.PositionMonotone | app.py:1122-1148 | for well-ordered figures a higher salary never gets a lower position |
| Percentiles.CompanyPercentile | app.py:713-723 | the company percentile lies in [1,99] for any figures, and each branch yields a value in its band |
| Percentiles.TopBand | app.py:713-715 | from the 90th percentile up the company percentile lies in [90,99], and is 95 when that percentile is not positive |
| Percentiles.BottomBand | app.py:722-723 | below the 25th percentile the company percentile lies in [1,25), and is 10 when that percentile is not positive |
| Percentiles.CompanyPercentileBands | app.py:713-723 | for well-ordered figures the company percentile lies in the band of the interval the salary falls in |
| Percentiles.CompanyPercentileBelowHalf | app.py:713-723 | for well-ordered figures the company percentile is below 50 exactly when the salary is below the company median |
| Percentiles.CompanyPercentileMonotone | app.py:713-723 | for well-ordered figures a higher salary never gets a lower company percentile |
| Bands.StatusOf | app.py:756-783 | the recommendation status places the percentile in its quarter: below 25, 25 to 50, 50 to 75, 75 and up |
| Bands.StatusNamesDistinct | app.py:758-781 | the four status strings sent to the client are pairwise distinct |
| Bands.MarketPositionOf | app.py:1155-1166 | the market-script wording places the percentile in its quarter |
| Bands.FallbackAdvice | app.py:1299-1342 | the fallback advice places the percentile in its quarter, and the two answers below the median quote median minus salary |
| Bands.ClassifiersAgree | app.py:756-783 | the recommendation status, the market-script wording and the fallback advice always choose the same quarter for a percentile |
| Bands.AskJustificationOf | app.py:1181-1188 | the median baseline is chosen exactly when the target is at most the median; "above average" exactly when it is above the median and at most the 75th percentile; "high performer" exactly when it is above both and at most the 90th percentile; for well-ordered figures top-tier wording exactly when it exceeds the 90th percentile; the middle two quote the target percentile |
| Bands.AskAgreesWithTargetPercentile | app.py:1181-1188 | for well-ordered figures the justification agrees with the target's percentile position: at most 50 for the baseline, 50 to 75 above average, 75 to 90 high performer, 90 and up top tier |
| Comparison.SelectStats | app.py:663-692 | statistics exist exactly when the narrow or broad query found a non-zero sample; the narrow query wins when it did |
| Comparison.CompanyFor | app.py:656-659 | a blank company name means no company; a recognised company is a table entry |
| Comparison.CompanyForAgreesWithLookup | app.py:656-659 | for a non-blank name, stripping first finds what the lookup itself finds |
| Comparison.BlankCompanyNameMeansMarket | app.py:656-659 | a whitespace-only name means no company here, although the lookup alone would return the first entry |
| Comparison.MarketRank | app.py:750 | the market percentile is the rank query's value when it is present and non-zero, and 50 otherwise |
| Comparison.ZeroRankReportedAsMedian | app.py:750 | a true rank of 0 is reported as 50 |
| Comparison.GapPercentage | app.py:725 | with a positive median the gap is the percentage that, added to the median, gives the salary; otherwise 0 |
| Comparison.GapSign | app.py:751 | with a positive median the gap is positive, zero or negative exactly as the salary is above, at or below the median |
| Comparison.Recommend | app.py:756-783 | the status lies in the percentile's quarter; a potential increase is quoted exactly for the two statuses below 50, and it is the distance to the median truncated to whole units |
| Comparison.Assess | app.py:700-783 | from the selected statistics: without a company the figures, average and sample size are the row's and the percentile is the rank; with a company the figures and average are the row's scaled by its multiplier and the percentile is the company percentile, within [1,99]; the gap is measured against the median shown; the recommendation is the one for the reported percentile |
| Comparison.CompareSalary | app.py:646-809 | missing fields and insufficient data are reported exactly when they occur; on success the market figures, sample size and average come from the statistics the narrow-before-broad selection picks, the average scaled by the multiplier of a recognised company; a recognised company scales the figures by its multiplier and bounds the percentile to [1,99]; otherwise the figures are the market's and the percentile is the rank; the gap is measured against the median shown; the recommendation is the one for the reported percentile, so its status lies in the percentile's quarter |
| Comparison.CompanyBelowMedianIffBelowStatus | app.py:713-783 | with a recognised company and well-ordered market figures, an increase is quoted exactly when the salary is below the company median |
| Negotiation.AchievementsText | app.py:991-992 | the sentence is never empty; with no non-blank entry it is the default sentence, and with exactly one it is that entry |
| Negotiation.AchievementsTextAppend | app.py:992 | while fewer than five entries have survived, one more non-blank entry is appended to the sentence after "; ", which with the one-entry case fixes both the order and the separator |
| Negotiation.BlankAchievementIgnored | app.py:991-992 | inserting a blank entry anywhere changes nothing |
| Negotiation.OnlyFirstFiveQuoted | app.py:992 | once five non-blank entries are present, later entries change nothing |
| Negotiation.ClientFilterIsHarmless | app.py:991-992 | filtering blank entries before the server filters again changes nothing |
| Negotiation.IncreasePercent | app.py:984 | the increase raises exactly when the current salary is 0; otherwise it is the percentage that takes the current salary to the target |
| Negotiation.IncreaseSign | app.py:984 | for a positive current salary the increase is positive exactly when the target is higher |
| Negotiation.GapToMedianPercent | app.py:1034 | for a positive current salary it is the percentage that takes the current salary to the median, and otherwise 0 |
| Negotiation.NegotiationScript | app.py:975-1036 | missing fields are reported exactly when a required field is absent; the script fails exactly when fields are missing, the current salary is 0 or either position raises; on success the two positions are those of the current and target salaries, the increase percentage, achievements sentence and gap-to-median percentage are those of their own functions, the increase amount is target minus current, the gap to median is median minus current, the ask justification is chosen for the target and its position, and the wording quarter matches the current position |
| Negotiation.ScriptForOrderedMarket | app.py:984-996 | for well-ordered figures, a non-zero current salary and a target not below it, the script is produced and 1 <= position <= target position <= 99 |
| Negotiation.DefaultMarketScript | app.py:1110-1119 | with the default figures the script is produced for any non-zero current salary |
| Negotiation.DefaultMarketPositions | app.py:1110-1148 | against the default figures 80,000 sits at position 37 and 150,000 at 90 |
| SampleData.ExperienceMultiplierLandmarks | app.py:429-436 | the piecewise multiplier `SampleData.ExperienceMultiplier` is 0.85 at 0 years, 1.0 at 2, 1.20 at 6, 1.41 at 12 and 1.55 at 15 |
| SampleData.ExperienceMultiplierIncreasing | app.py:429-436 | the multiplier strictly increases with experience |
| SampleData.ExperienceMultiplierRange | app.py:429-436 | for the drawn experience range 0..15 the multiplier lies in [0.85, 1.55] |
| Rounding.RoundHalfEven | app.py:474 | `round` yields an integer within 0.5 of its argument, and the even one on a tie |
| Rounding.RoundToTenth | app.py:791 | `round(x, 1)` yields a whole number of tenths within 0.05 of its argument, with an even number of tenths on a tie |
| Rounding.RoundToTenthSign | app.py:791 | a value within 0.05 of zero, the boundary included, rounds to 0; beyond 0.05 the rounded value keeps the sign |
| SampleData.RoundToThousand | app.py:474 | the final salary is a multiple of 1000 within 500 of the base, and on a tie an even number of thousands (2,500 becomes 2,000) |
| SampleData.RoundToThousandIdempotent | app.py:474 | rounding an already rounded salary changes nothing |
| Text.KeepNonBlank | frontend/src/App.jsx:609 | the filter keeps exactly the non-blank entries: every kept entry is non-blank and from the input, and every non-blank input entry is kept |
| Text.KeepNonBlankIdempotent | app.py:991 | filtering twice equals filtering once |
| Text.KeepNonBlankSkipsBlank | app.py:991 | a blank entry anywhere in the list is dropped without affecting the others |
| Text.KeepNonBlankAppend | app.py:991 | filtering a concatenation concatenates the filtered parts, so order is kept |
| Text.JoinAppend | app.py:992 | joining one more piece appends the separator and the piece |
| Text.StripIgnoresPadding | app.py:140 | stripping ignores any whitespace added on either side |
| Text.StripIdempotent | app.py:656 | stripping twice equals stripping once |
| Text.LowerStripCommute | app.py:140 | lower-casing and stripping commute |
| Frontend.UpdateAchievement | frontend/src/App.jsx:619-623 | the edited list has the same length, holds the new value at the index, and is unchanged elsewhere |
| Frontend.UpdateAchievementUndo | frontend/src/App.jsx:619-623 | writing the old value back restores the list |
| Frontend.UpdateAchievementLastWins | frontend/src/App.jsx:619-623 | of two edits to the same slot, the later one wins |
| Frontend.GapDisplay | frontend/src/App.jsx:402-404 | for the prefix `Frontend.GapPrefix` and the flag `Frontend.GapPositive`, the sign and the flag agree: a gap with a '+' is flagged positive, a gap flagged negative has no '+', and only a zero gap is flagged positive without a '+' |
| Frontend.ShownGap | app.py:791 | the gap the client receives is within 0.05 of the computed gap percentage |
| Frontend.GapDisplayMatchesSalary | frontend/src/App.jsx:402-404 | for the gap the client receives (rounded to one decimal, app.py:791) with a positive median: when the computed gap is more than 0.05 from zero, the row is flagged positive exactly when the salary is at least the median and gets a '+' exactly when it is above it; within 0.05 of zero, the boundary included, it is flagged positive without a '+' |
| Frontend.NearMedianGapShownAsZero | frontend/src/App.jsx:402-404 | 99,990 against a median of 100,000 is shown as a gap of 0 and flagged positive; 100,010 is shown without a '+' |
| Frontend.BorderOfStatus | frontend/src/App.jsx:409-414 | under `Frontend.Border`, each status string gets its own border colour (red, yellow, green, blue in status order), and any other string gets blue |
| Frontend.RowColour | frontend/src/App.jsx:444 | a row that is not highlighted is gray; a highlighted row is red exactly for `positive === false`, green exactly for `positive` true, and primary exactly when the flag is absent |
| Frontend.GapRowColour | frontend/src/App.jsx:399-404 | the gap row, always highlighted and always given a flag, is never the neutral colour; for a positive median and a gap more than 0.05 from zero it is green exactly when the salary is at least the median and red exactly when it is below (colours of App.jsx:444) |
| Frontend.BarPercentage | frontend/src/App.jsx:451-452 | the width is undefined exactly for a zero maximum; otherwise it is the percentage of the maximum that the value represents |
| Frontend.DistributionBars | frontend/src/App.jsx:426-429 | for well-ordered figures the four bars have defined, positive widths that never decrease from bar to bar (equal reference points give equal bars), and the last is exactly 100 |

## Left out

- The database is not modelled: the Snowflake connection, the SQL text of the aggregate, rank and insert queries, and `execute_query`. Query results are parameters instead.
- The `except` paths of `compare_salary` and of the market-data helpers, which catch database errors, are not modelled.
- How `get_negotiation_market_data` chooses between its location and industry queries is not modelled. Only its default figures are (`Negotiation.DefaultMarket`).
- The AI chat endpoint and Cortex completion calls, the RAG knowledge base, and the prompt text are left out. Their output is free text from an external service.
- Flask routing, JSON parsing and `float()`/`int()` conversion of request fields are left out. A field that fails to convert raises right after the required-field check (which is modelled as `Failure(MissingFields)`), before the rest of the modelled logic.
- A JSON `null` company name is left out: `company_name` is a string in `Comparison.CompareRequest`, so the model cannot represent it. The source raises `AttributeError` on it when it strips the name (app.py:656).
- The text of messages, scripts and advice is left out: currency formatting (`:,.0f`), f-strings, and the company insight note. The model keeps only the choices that select the text, and the figures quoted in it.
- Display rounding with `round(x, 1)` and `round(x)` in the JSON responses is left out, except for the gap percentage the client tests (`Frontend.ShownGap`). The model returns the other values unrounded.
- Floating-point behaviour is left out: IEEE rounding, infinities and NaN. Salaries are exact reals, so `x / 0` in JavaScript is modelled as `None` (`Frontend.BarPercentage`).
- The random draws of `insert_snowflake_sample_data` (roles, locations, companies, noise) are left out, and so is its `location_multipliers` table (app.py:379-392), which only feeds that generation. Only its experience multiplier and rounding steps are modelled.
- React state and rendering, axios calls, and the rest of the client are left out.
- `Frontend.GapDisplayMatchesSalary`: the case of a gap of exactly ±0.05 percent, where the shown gap is 0, holds only for exact reals. In doubles the computed gap lies just beyond 0.05, and `round(x, 1)` gives ±0.1.
- `Rounding.RoundToTenthSign`: rounding exactly ±0.05 to 0 is the tie rule on exact reals. A double argument is never exactly 0.05, so the program never meets that tie.
- `Text.ToLower`: lower-cases ASCII letters only, while Python's `str.lower` applies full Unicode case mapping.
- `Text.IsSpace`: one set (space, tab, LF, CR, VT, FF) serves both Python `strip()` and JavaScript `trim()`. Python also strips U+001C to U+001F, U+0085 and the Unicode spaces; JavaScript also trims U+FEFF and the Unicode spaces. With the real sets the client would drop an entry of just U+FEFF that the server alone keeps, so `Negotiation.ClientFilterIsHarmless` rests on the shared set.
- `Frontend.UpdateAchievement`: requires an index inside the list. Assigning past the end of a JavaScript array would extend it with holes, but the client only edits existing slots.
- `Companies.Lookup` models the dictionary as a sequence in insertion order. Python dictionaries iterate in insertion order, so the first partial match is the same in both. The 75 keys of the table are distinct, so the first entry whose key equals the name is the one the dictionary's key lookup returns.
- `test_snowflake.py` and `reset_data.py` are left out. They are maintenance scripts that only talk to the database.

=== FILE: bands.dfy ===
/** The tier classifiers. Three of them (the recommendation status of
    `compare_salary`, the market-position wording of
    `build_market_data_script`, and `get_fallback_advice`) split the
    percentile scale at 25, 50 and 75; the ask justification of
    `build_ask_script` compares a target salary with the median, 75th and
    90th percentiles. */
module Bands {
  import opened Percentiles

  /** `p` lies in quarter `k` of the percentile scale: quarter 0 is
      everything below 25, quarters 1 and 2 are [25,50) and [50,75), and
      quarter 3 is everything from 75 up. */
  predicate InQuarter(p: real, k: nat) {
    k <= 3 && (k == 0 || 25.0 * k as real <= p) && (k == 3 || p < 25.0 * (k + 1) as real)
  }

  /** Every percentile lies in exactly one quarter. */
  lemma QuarterUnique(p: real, k1: nat, k2: nat)
    requires InQuarter(p, k1) && InQuarter(p, k2)
    ensures k1 == k2
  {
  }

  /** `recommendation['status']` of `compare_salary` */
  datatype Status = BelowMarket | BelowMedian | Competitive | AboveMarket {

    function Quarter(): nat {
      match this
      case BelowMarket => 0
      case BelowMedian => 1
      case Competitive => 2
      case AboveMarket => 3
    }

    /** The status string sent to the client */
    function Name(): string {
      match this
      case BelowMarket => "below_market"
      case BelowMedian => "below_median"
      case Competitive => "competitive"
      case AboveMarket => "above_market"
    }
  }

  function StatusOf(percentile: real): (s: Status)
    ensures InQuarter(percentile, s.Quarter())
  {
    if percentile < 25.0 then BelowMarket
    else if percentile < 50.0 then BelowMedian
    else if percentile < 75.0 then Competitive
    else AboveMarket
  }

  /** The position wording `build_market_data_script` chooses */
  datatype MarketPosition = FarBelowMarket | UnderMedian | AroundMedian | UpperRange {

    function Quarter(): nat {
      match this
      case FarBelowMarket => 0
      case UnderMedian => 1
      case AroundMedian => 2
      case UpperRange => 3
    }
  }

  function MarketPositionOf(percentile: int): (m: MarketPosition)
    ensures InQuarter(percentile as real, m.Quarter())
  {
    if percentile < 25 then FarBelowMarket
    else if percentile < 50 then UnderMedian
    else if percentile < 75 then AroundMedian
    else UpperRange
  }

  /** The four canned answers of `get_fallback_advice`; the two below the
      median quote the gap to the median. */
  datatype Advice = BottomQuartileAdvice(gap: real) | BelowMedianAdvice(gap: real)
                  | AboveMedianAdvice | TopQuartileAdvice {

    function Quarter(): nat {
      match this
      case BottomQuartileAdvice(_) => 0
      case BelowMedianAdvice(_) => 1
      case AboveMedianAdvice => 2
      case TopQuartileAdvice => 3
    }
  }

  function FallbackAdvice(percentile: real, salary: real, medianSalary: real): (a: Advice)
    ensures InQuarter(percentile, a.Quarter())
    ensures a.Quarter() < 2 ==> a.gap + salary == medianSalary
  {
    if percentile < 25.0 then BottomQuartileAdvice(medianSalary - salary)
    else if percentile < 50.0 then BelowMedianAdvice(medianSalary - salary)
    else if percentile < 75.0 then AboveMedianAdvice
    else TopQuartileAdvice
  }

  /** The recommendation status, the market-script wording and the
      fallback advice all place the same percentile in the same quarter. */
  lemma ClassifiersAgree(percentile: int, salary: real, medianSalary: real)
    ensures StatusOf(percentile as real).Quarter() == MarketPositionOf(percentile).Quarter()
    ensures StatusOf(percentile as real).Quarter() == FallbackAdvice(percentile as real, salary, medianSalary).Quarter()
  {
    var p := percentile as real;
    QuarterUnique(p, StatusOf(p).Quarter(), MarketPositionOf(percentile).Quarter());
    QuarterUnique(p, StatusOf(p).Quarter(), FallbackAdvice(p, salary, medianSalary).Quarter());
  }

  /** Status names are distinct, so the client can tell the statuses apart. */
  lemma StatusNamesDistinct(s: Status, t: Status)
    ensures s.Name() == t.Name() <==> s == t
  {
  }

  /** The justification `build_ask_script` gives for a target salary */
  datatype AskJustification = MedianBaseline | AboveAverage(targetPercentile: int)
                            | HighPerformer(targetPercentile: int) | TopTier

  function AskJustificationOf(target: real, q: Quartiles, targetPercentile: int): (a: AskJustification)
    ensures a.MedianBaseline? <==> target <= q.median
    ensures a.AboveAverage? <==> q.median < target <= q.p75
    ensures a.HighPerformer? <==> q.median < target && q.p75 < target <= q.p90
    ensures a.AboveAverage? || a.HighPerformer? ==> a.targetPercentile == targetPercentile
    ensures WellOrdered(q) ==> (a.TopTier? <==> q.p90 < target)
  {
    if target <= q.median then MedianBaseline
    else if target <= q.p75 then AboveAverage(targetPercentile)
    else if target <= q.p90 then HighPerformer(targetPercentile)
    else TopTier
  }

  /** For a well-ordered distribution the justification agrees with the
      target's own percentile position: the median baseline is quoted
      for positions up to 50, "above-average" for 50..75, "high
      performer" for 75..90, and top-tier wording from 90 up. */
  lemma AskAgreesWithTargetPercentile(target: real, q: Quartiles)
    requires WellOrdered(q)
    ensures PercentilePosition(target, q).Success?
    ensures var tp := PercentilePosition(target, q).value;
      match AskJustificationOf(target, q, tp)
      case MedianBaseline => tp <= 50
      case AboveAverage(t) => 50 <= t <= 75
      case HighPerformer(t) => 75 <= t <= 90
      case TopTier => 90 <= tp
  {
    PositionBands(target, q);
  }
}

=== FILE: companies.dfy ===
/** The company table and `get_company_data`: a name is matched, case-
    and padding-insensitively, first against the table's keys and then,
    in table order, by substring against each key and display name. */
module Companies {
  import opened Wrappers
  import opened Text

  datatype Tier = Top | High | Mid

  /** Every multiplier of the table lies in this range; in particular it
      is positive, so scaling market figures by it keeps their order. */
  type Multiplier = m: real | 0.95 <= m <= 1.60 witness 1.0

  /** The table's keys are non-empty lower-case names. */
  type Key = k: string | k != "" witness "ibm"

  /** One value of the table: a pay multiplier relative to the market
      median, a display name and a pay tier. */
  datatype Company = Company(multiplier: Multiplier, name: string, tier: Tier)

  /** One key/value pair of the table */
  datatype Entry = Entry(key: Key, company: Company)

  /** The table in insertion order; Python dicts iterate in that order,
      which is what makes "the first partial match" well defined. */
  type Table = seq<Entry>

  const CompanySalaryData: Table :=
    BigTech + HighPayingTech + EnterpriseTech + Finance + Retail + Healthcare + Consulting + Growth + Gaming + Telecom

  const BigTech: Table :=
    [
      Entry("google", Company(1.45, "Google", Top)),
      Entry("meta", Company(1.50, "Meta", Top)),
      Entry("facebook", Company(1.50, "Meta", Top)),
      Entry("apple", Company(1.35, "Apple", Top)),
      Entry("amazon", Company(1.25, "Amazon", Top)),
      Entry("netflix", Company(1.60, "Netflix", Top)),
      Entry("microsoft", Company(1.30, "Microsoft", Top))
    ]

  const HighPayingTech: Table :=
    [
      Entry("stripe", Company(1.55, "Stripe", Top)),
      Entry("airbnb", Company(1.40, "Airbnb", Top)),
      Entry("uber", Company(1.30, "Uber", Top)),
      Entry("lyft", Company(1.20, "Lyft", High)),
      Entry("doordash", Company(1.25, "DoorDash", High)),
      Entry("coinbase", Company(1.45, "Coinbase", Top)),
      Entry("robinhood", Company(1.35, "Robinhood", High)),
      Entry("databricks", Company(1.50, "Databricks", Top)),
      Entry("snowflake", Company(1.45, "Snowflake", Top)),
      Entry("palantir", Company(1.35, "Palantir", High)),
      Entry("splunk", Company(1.25, "Splunk", High))
    ]

  const EnterpriseTech: Table :=
    [
      Entry("salesforce", Company(1.25, "Salesforce", High)),
      Entry("oracle", Company(1.10, "Oracle", Mid)),
      Entry("ibm", Company(1.00, "IBM", Mid)),
      Entry("cisco", Company(1.15, "Cisco", Mid)),
      Entry("vmware", Company(1.20, "VMware", High)),
      Entry("adobe", Company(1.30, "Adobe", High)),
      Entry("intuit", Company(1.25, "Intuit", High)),
      Entry("servicenow", Company(1.30, "ServiceNow", High)),
      Entry("workday", Company(1.25, "Workday", High))
    ]

  const Finance: Table :=
    [
      Entry("jpmorgan", Company(1.20, "JPMorgan Chase", High)),
      Entry("goldman sachs", Company(1.35, "Goldman Sachs", Top)),
      Entry("morgan stanley", Company(1.30, "Morgan Stanley", High)),
      Entry("capital one", Company(1.15, "Capital One", Mid)),
      Entry("american express", Company(1.15, "American Express", Mid)),
      Entry("visa", Company(1.25, "Visa", High)),
      Entry("mastercard", Company(1.25, "Mastercard", High)),
      Entry("paypal", Company(1.20, "PayPal", High)),
      Entry("square", Company(1.30, "Block (Square)", High)),
      Entry("block", Company(1.30, "Block", High))
    ]

  const Retail: Table :=
    [
      Entry("walmart", Company(0.95, "Walmart", Mid)),
      Entry("target", Company(0.95, "Target", Mid)),
      Entry("costco", Company(1.05, "Costco", Mid)),
      Entry("shopify", Company(1.25, "Shopify", High)),
      Entry("ebay", Company(1.15, "eBay", Mid)),
      Entry("etsy", Company(1.15, "Etsy", Mid))
    ]

  const Healthcare: Table :=
    [
      Entry("unitedhealth", Company(1.10, "UnitedHealth", Mid)),
      Entry("cvs", Company(0.95, "CVS Health", Mid)),
      Entry("pfizer", Company(1.15, "Pfizer", Mid)),
      Entry("johnson & johnson", Company(1.20, "Johnson & Johnson", High))
    ]

  const Consulting: Table :=
    [
      Entry("mckinsey", Company(1.40, "McKinsey", Top)),
      Entry("bain", Company(1.35, "Bain & Company", Top)),
      Entry("bcg", Company(1.35, "BCG", Top)),
      Entry("deloitte", Company(1.10, "Deloitte", Mid)),
      Entry("accenture", Company(1.05, "Accenture", Mid)),
      Entry("pwc", Company(1.05, "PwC", Mid)),
      Entry("kpmg", Company(1.05, "KPMG", Mid)),
      Entry("ey", Company(1.05, "EY", Mid))
    ]

  const Growth: Table :=
    [
      Entry("openai", Company(1.55, "OpenAI", Top)),
      Entry("anthropic", Company(1.50, "Anthropic", Top)),
      Entry("figma", Company(1.40, "Figma", Top)),
      Entry("notion", Company(1.30, "Notion", High)),
      Entry("discord", Company(1.30, "Discord", High)),
      Entry("slack", Company(1.25, "Slack", High)),
      Entry("zoom", Company(1.20, "Zoom", High)),
      Entry("twilio", Company(1.25, "Twilio", High)),
      Entry("datadog", Company(1.35, "Datadog", High)),
      Entry("mongodb", Company(1.30, "MongoDB", High))
    ]

  const Gaming: Table :=
    [
      Entry("nvidia", Company(1.40, "NVIDIA", Top)),
      Entry("amd", Company(1.20, "AMD", High)),
      Entry("intel", Company(1.15, "Intel", Mid)),
      Entry("ea", Company(1.15, "Electronic Arts", Mid)),
      Entry("activision", Company(1.10, "Activision Blizzard", Mid)),
      Entry("riot games", Company(1.25, "Riot Games", High)),
      Entry("epic games", Company(1.30, "Epic Games", High))
    ]

  const Telecom: Table :=
    [
      Entry("verizon", Company(1.05, "Verizon", Mid)),
      Entry("at&t", Company(1.00, "AT&T", Mid)),
      Entry("t-mobile", Company(1.05, "T-Mobile", Mid))
    ]

  /** `company_name.lower().strip()` */
  function Normalize(name: string): string {
    Strip(ToLower(name))
  }

  /** The partial-match test of one table entry against a normalised name:
      the key or the lower-cased display name contains the name, or is
      contained in it. */
  predicate PartialMatch(n: string, entry: Entry) {
    var key := entry.key;
    var display := ToLower(entry.company.name);
    IsSubstring(key, n) || IsSubstring(n, key) || IsSubstring(display, n) || IsSubstring(n, display)
  }

  /** `get_company_data` over an arbitrary table `t`. A falsy (empty) name
      finds nothing; otherwise its normal form is looked up. */
  function LookupIn(t: Table, name: string): (r: Option<Company>)
    ensures name == "" ==> r.None?
    ensures r.Some? ==> exists i :: 0 <= i < |t| && t[i].company == r.value
  {
    if name == "" then None else LookupNormalized(t, Normalize(name))
  }

  /** The search for an already normalised name `n`: an exact key hit
      first, then the first entry that matches partially. */
  function LookupNormalized(t: Table, n: string): (r: Option<Company>)
    ensures r.Some? ==> exists i :: 0 <= i < |t| && t[i].company == r.value
  {
    match FirstIndex(t, (e: Entry) => e.key == n)
    case Some(i) => Some(t[i].company)
    case None =>
      match FirstIndex(t, (e: Entry) => PartialMatch(n, e))
      case Some(i) => Some(t[i].company)
      case None => None
  }

  /** `get_company_data` itself, over the company table */
  function Lookup(name: string): Option<Company> {
    LookupIn(CompanySalaryData, name)
  }

  /** An exact key hit is returned whatever partial matches come earlier
      in the table. */
  lemma ExactKeyWins(t: Table, name: string, i: nat)
    requires name != ""
    requires i < |t| && t[i].key == Normalize(name)
    requires forall j :: 0 <= j < i ==> t[j].key != Normalize(name)
    ensures LookupIn(t, name) == Some(t[i].company)
  {
  }

  /** Without an exact key, the earliest partially matching entry is
      returned. */
  lemma EarliestPartialMatchWins(t: Table, name: string, i: nat)
    requires name != ""
    requires forall j :: 0 <= j < |t| ==> t[j].key != Normalize(name)
    requires i < |t| && PartialMatch(Normalize(name), t[i])
    requires forall j :: 0 <= j < i ==> !PartialMatch(Normalize(name), t[j])
    ensures LookupIn(t, name) == Some(t[i].company)
  {
    var n := Normalize(name);
    var hit := FirstIndex(t, (e: Entry) => PartialMatch(n, e));
    assert FirstIndex(t, (e: Entry) => e.key == n).None?;
    assert hit.Some? && hit.value == i;
  }

  /** A non-empty name finds nothing exactly when no entry matches it,
      exactly or partially. */
  lemma NoMatchIffNone(t: Table, name: string)
    requires name != ""
    ensures LookupIn(t, name).None? <==>
      forall j :: 0 <= j < |t| ==> t[j].key != Normalize(name) && !PartialMatch(Normalize(name), t[j])
  {
    var n := Normalize(name);
    if forall j :: 0 <= j < |t| ==> t[j].key != n && !PartialMatch(n, t[j]) {
      assert FirstIndex(t, (e: Entry) => e.key == n).None?;
      assert FirstIndex(t, (e: Entry) => PartialMatch(n, e)).None?;
    } else {
      var j :| 0 <= j < |t| && (t[j].key == n || PartialMatch(n, t[j]));
      if t[j].key == n {
        assert FirstIndex(t, (e: Entry) => e.key == n).Some?;
      } else {
        assert FirstIndex(t, (e: Entry) => PartialMatch(n, e)).Some?;
      }
    }
  }

  lemma LowerKeepsAllSpace(w: string)
    requires AllSpace(w)
    ensures AllSpace(ToLower(w))
  {
    forall i | 0 <= i < |w| ensures IsSpace(ToLower(w)[i]) {
      LowerCharKeepsSpace(w[i]);
    }
  }

  /** Lookup ignores letter case and surrounding whitespace: a padded name
      that agrees with `a` up to case finds what `a` finds. */
  lemma LookupIgnoresCaseAndPadding(t: Table, a: string, b: string, w1: string, w2: string)
    requires a != ""
    requires ToLower(a) == ToLower(b)
    requires AllSpace(w1) && AllSpace(w2)
    ensures LookupIn(t, w1 + b + w2) == LookupIn(t, a)
  {
    LowerKeepsAllSpace(w1);
    LowerKeepsAllSpace(w2);
    assert ToLower(w1 + b + w2) == ToLower(w1) + ToLower(b) + ToLower(w2);
    StripIgnoresPadding(ToLower(w1), ToLower(b), ToLower(w2));
    assert Normalize(w1 + b + w2) == Normalize(a);
  }

  /** Stripping a name before the lookup changes nothing, unless nothing
      is left of it. */
  lemma LookupOfStripped(t: Table, name: string)
    requires !IsBlank(name)
    ensures LookupIn(t, Strip(name)) == LookupIn(t, name)
  {
    LowerStripCommute(name);
    StripIdempotent(ToLower(name));
    assert Normalize(Strip(name)) == Normalize(name);
  }

  /** A name made only of whitespace is truthy but normalises to "",
      which is a substring of every key: it selects the first entry. */
  lemma BlankNameSelectsFirstEntry(t: Table, name: string)
    requires name != "" && AllSpace(name)
    requires |t| > 0
    ensures LookupIn(t, name) == Some(t[0].company)
  {
    LowerKeepsAllSpace(name);
    BlankIffAllSpace(ToLower(name));
    assert Normalize(name) == "";
    assert IsPrefix("", t[0].key);
    EarliestPartialMatchWins(t, name, 0);
  }

  /** On the company table, a whitespace-only name selects Google. */
  lemma BlankNameIsGoogle(name: string)
    requires name != "" && AllSpace(name)
    ensures Lookup(name) == Some(Company(1.45, "Google", Top))
  {
    var t := CompanySalaryData;
    assert t[0].company == Company(1.45, "Google", Top);
    BlankNameSelectsFirstEntry(t, name);
  }
}

=== FILE: comparison.dfy ===
/** The decision and arithmetic logic of `compare_salary`: which market
    figures are used, whether a company adjustment applies, the percentile,
    the gap to the median and the recommendation. The aggregate and rank
    queries are inputs (their rows), not computed. */
module Comparison {
  import opened Wrappers
  import opened Text
  import opened Companies
  import opened Percentiles
  import opened Bands

  /** The request fields `compare_salary` insists on */
  const RequiredFields: set<string> :=
    {"job_title", "industry", "years_experience", "salary", "location"}

  /** One row of the aggregate query: sample size, average and the
      MEDIAN / PERCENTILE_CONT figures */
  datatype Stats = Stats(sampleSize: nat, avg: real, quartiles: Quartiles)

  /** The parts of the request body the logic reads: the set of keys
      present, the salary, and `company_name` ("" when absent). */
  datatype CompareRequest = CompareRequest(fields: set<string>, salary: real, companyName: string)

  datatype CompareError = MissingFields | InsufficientData

  /** `recommendation`: its status and, for the two statuses below the
      median, the whole-unit distance to the median. */
  datatype Recommendation = Recommendation(status: Status, potentialIncrease: Option<nat>)

  /** The `comparison` object of the response, before display rounding.
      `quartiles` are the figures shown (company-adjusted when a company
      was recognised), `market` the raw market figures. */
  datatype Comparison = Comparison(
    yourSalary: real,
    quartiles: Quartiles,
    avg: real,
    percentile: real,
    gap: real,
    sampleSize: nat,
    recommendation: Recommendation,
    company: Option<Company>,
    market: Quartiles)

  predicate Usable(rows: seq<Stats>) {
    |rows| > 0 && rows[0].sampleSize != 0
  }

  /** The narrow query (same industry, experience within 2 years) is used
      when it found anything; otherwise the broad one (experience within 3
      years). */
  function SelectStats(narrow: seq<Stats>, broad: seq<Stats>): (r: Option<Stats>)
    ensures r.Some? <==> Usable(narrow) || Usable(broad)
    ensures r.Some? ==> r.value.sampleSize > 0
    ensures Usable(narrow) ==> r == Some(narrow[0])
    ensures !Usable(narrow) && Usable(broad) ==> r == Some(broad[0])
  {
    if Usable(narrow) then Some(narrow[0])
    else if Usable(broad) then Some(broad[0])
    else None
  }

  /** `get_company_data(company_name) if company_name else None`, on the
      stripped `company_name` */
  function CompanyFor(companyName: string): (r: Option<Company>)
    ensures IsBlank(companyName) ==> r.None?
    ensures r.Some? ==> exists i :: 0 <= i < |CompanySalaryData| && CompanySalaryData[i].company == r.value
  {
    var n := Strip(companyName);
    if n != "" then Lookup(n) else None
  }

  /** Whenever the stripped name is non-empty, stripping first changes
      nothing: the request finds what `get_company_data` finds. */
  lemma CompanyForAgreesWithLookup(companyName: string)
    requires !IsBlank(companyName)
    ensures CompanyFor(companyName) == Lookup(companyName)
  {
    LookupOfStripped(CompanySalaryData, companyName);
  }

  /** A whitespace-only company name counts as no company here, although
      `get_company_data` itself would map it to the first table entry. */
  lemma BlankCompanyNameMeansMarket(companyName: string)
    requires companyName != "" && AllSpace(companyName)
    ensures CompanyFor(companyName).None?
    ensures Lookup(companyName) == Some(CompanySalaryData[0].company)
  {
    BlankIffAllSpace(companyName);
    BlankNameIsGoogle(companyName);
  }

  /** The market percentile: the rank query's value, or 50 when the query
      returned no row, NULL, or 0 (0 is falsy in Python). */
  function MarketRank(rows: seq<Option<real>>): (r: real)
    ensures r == 50.0 || (|rows| > 0 && rows[0] == Some(r) && r != 0.0)
    ensures |rows| > 0 && rows[0].Some? && rows[0].value != 0.0 ==> r == rows[0].value
  {
    if |rows| > 0 && rows[0].Some? && rows[0].value != 0.0 then rows[0].value else 50.0
  }

  /** A true rank of 0 (the lowest salary of the cohort) is reported as 50. */
  lemma ZeroRankReportedAsMedian(rows: seq<Option<real>>)
    requires |rows| > 0 && rows[0] == Some(0.0)
    ensures MarketRank(rows) == 50.0
  {
  }

  /** The percentage by which the salary deviates from the median, or 0
      when the median is not positive. */
  function GapPercentage(salary: real, median: real): (r: real)
    ensures median <= 0.0 ==> r == 0.0
    ensures median > 0.0 ==> median + median * r / 100.0 == salary
  {
    if median > 0.0 then ((salary - median) / median) * 100.0 else 0.0
  }

  /** With a positive median, the gap has the sign of `salary - median`. */
  lemma GapSign(salary: real, median: real)
    requires median > 0.0
    ensures GapPercentage(salary, median) > 0.0 <==> salary > median
    ensures GapPercentage(salary, median) == 0.0 <==> salary == median
    ensures GapPercentage(salary, median) < 0.0 <==> salary < median
  {
    var g := GapPercentage(salary, median);
    assert median * g / 100.0 == salary - median;
    if g > 0.0 { assert median * g > 0.0; }
    if g < 0.0 { assert median * g < 0.0; }
  }

  /** The recommendation for a percentile. */
  function Recommend(percentile: real, median: real, salary: real): (r: Recommendation)
    ensures InQuarter(percentile, r.status.Quarter())
    ensures r.potentialIncrease.Some? <==> r.status == BelowMarket || r.status == BelowMedian
    ensures r.potentialIncrease.Some? ==>
      r.potentialIncrease.value as real <= Distance(median, salary) < r.potentialIncrease.value as real + 1.0
  {
    var status := StatusOf(percentile);
    var amount := Trunc(median - salary);
    var increase: nat := if amount < 0 then -amount else amount;
    if status == BelowMarket || status == BelowMedian then Recommendation(status, Some(increase))
    else Recommendation(status, None)
  }

  function Distance(a: real, b: real): real {
    if a >= b then a - b else b - a
  }

  /** A market figure adjusted by a company's multiplier */
  function Adjust(x: real, multiplier: real): real {
    x * multiplier
  }

  /** The comparison built from the selected statistics `stat` and the
      recognised company, if any. */
  function Assess(stat: Stats, company: Option<Company>, salary: real,
                  rankRows: seq<Option<real>>): (r: Comparison)
    ensures r.company == company && r.market == stat.quartiles
    ensures r.sampleSize == stat.sampleSize && r.yourSalary == salary
    ensures company.None? ==>
      r.avg == stat.avg && r.quartiles == stat.quartiles && r.percentile == MarketRank(rankRows)
    ensures company.Some? ==>
      r.avg == Adjust(stat.avg, company.value.multiplier) &&
      r.quartiles == Scale(stat.quartiles, company.value.multiplier) &&
      r.percentile == CompanyPercentile(salary, r.quartiles) &&
      1.0 <= r.percentile <= 99.0
    ensures r.gap == GapPercentage(salary, r.quartiles.median)
    ensures r.recommendation == Recommend(r.percentile, r.quartiles.median, salary)
    ensures InQuarter(r.percentile, r.recommendation.status.Quarter())
  {
    var market := stat.quartiles;
    var (quartiles, avg, percentile) :=
      match company
      case Some(c) =>
        var adjusted := Scale(market, c.multiplier);
        (adjusted, Adjust(stat.avg, c.multiplier), CompanyPercentile(salary, adjusted))
      case None =>
        (market, stat.avg, MarketRank(rankRows));
    Comparison(
      salary, quartiles, avg, percentile,
      GapPercentage(salary, quartiles.median),
      stat.sampleSize,
      Recommend(percentile, quartiles.median, salary),
      company, market)
  }

  /** `compare_salary`, given the rows of its two aggregate queries and of
      its rank query. */
  function CompareSalary(req: CompareRequest, narrow: seq<Stats>, broad: seq<Stats>,
                         rankRows: seq<Option<real>>): (r: Result<Comparison, CompareError>)
    ensures r == Failure(MissingFields) <==> !(RequiredFields <= req.fields)
    ensures r == Failure(InsufficientData) <==>
      RequiredFields <= req.fields && !Usable(narrow) && !Usable(broad)
    ensures r.Success? ==> r.value.company == CompanyFor(req.companyName)
    ensures r.Success? ==>
      SelectStats(narrow, broad).Some? &&
      r.value.market == SelectStats(narrow, broad).value.quartiles &&
      r.value.sampleSize == SelectStats(narrow, broad).value.sampleSize
    ensures r.Success? && r.value.company.None? ==>
      r.value.avg == SelectStats(narrow, broad).value.avg
    ensures r.Success? && r.value.company.Some? ==>
      r.value.avg == Adjust(SelectStats(narrow, broad).value.avg, r.value.company.value.multiplier)
    ensures r.Success? ==> r.value.sampleSize > 0 && r.value.yourSalary == req.salary
    ensures r.Success? ==> r.value.gap == GapPercentage(req.salary, r.value.quartiles.median)
    ensures r.Success? ==> InQuarter(r.value.percentile, r.value.recommendation.status.Quarter())
    ensures r.Success? ==>
      r.value.recommendation == Recommend(r.value.percentile, r.value.quartiles.median, req.salary)
    ensures r.Success? && r.value.company.Some? ==>
      r.value.percentile == CompanyPercentile(req.salary, r.value.quartiles)
    ensures r.Success? && r.value.company.None? ==>
      r.value.percentile == MarketRank(rankRows) && r.value.quartiles == r.value.market
    ensures r.Success? && r.value.company.Some? ==>
      1.0 <= r.value.percentile <= 99.0 &&
      r.value.quartiles == Scale(r.value.market, r.value.company.value.multiplier)
  {
    if !(RequiredFields <= req.fields) then Failure(MissingFields)
    else
      match SelectStats(narrow, broad)
      case None => Failure(InsufficientData)
      case Some(stat) => Success(Assess(stat, CompanyFor(req.companyName), req.salary, rankRows))
  }

  /** When a company is recognised and the market figures are well
      ordered, the recommendation is one of the two "below" statuses
      exactly when the salary is below the company median, and then the
      quoted increase is the distance to that median. */
  lemma CompanyBelowMedianIffBelowStatus(req: CompareRequest, narrow: seq<Stats>, broad: seq<Stats>,
                                         rankRows: seq<Option<real>>)
    requires CompareSalary(req, narrow, broad, rankRows).Success?
    requires CompareSalary(req, narrow, broad, rankRows).value.company.Some?
    requires WellOrdered(CompareSalary(req, narrow, broad, rankRows).value.market)
    ensures var c := CompareSalary(req, narrow, broad, rankRows).value;
      c.recommendation.potentialIncrease.Some? <==> req.salary < c.quartiles.median
  {
    var c := CompareSalary(req, narrow, broad, rankRows).value;
    assert WellOrdered(c.quartiles);
    CompanyPercentileBelowHalf(req.salary, c.quartiles);
    assert c.recommendation.potentialIncrease.Some? <==> c.percentile < 50.0;
  }
}

=== FILE: frontend.dfy ===
/** The client's pure helpers: editing one achievement slot, the sign and
    colour of the gap, the recommendation border, the colour of a result
    row and the width of a distribution bar. (The blank filter applied to
    achievements on submit is `Text.KeepNonBlank`.) */
module Frontend {
  import opened Wrappers
  import opened Percentiles
  import opened Bands
  import opened Rounding
  import Comparison

  /** `updateAchievement(index, value)`: a copy of the list with one slot
      replaced. */
  function UpdateAchievement(achievements: seq<string>, index: nat, value: string): (r: seq<string>)
    requires index < |achievements|
    ensures |r| == |achievements|
    ensures r[index] == value
    ensures forall j :: 0 <= j < |r| && j != index ==> r[j] == achievements[j]
  {
    achievements[index := value]
  }

  /** Writing the old value back restores the list. */
  lemma UpdateAchievementUndo(achievements: seq<string>, index: nat, value: string)
    requires index < |achievements|
    ensures UpdateAchievement(UpdateAchievement(achievements, index, value), index, achievements[index])
      == achievements
  {
  }

  /** Of two edits to the same slot, the later one wins. */
  lemma UpdateAchievementLastWins(achievements: seq<string>, index: nat, v1: string, v2: string)
    requires index < |achievements|
    ensures UpdateAchievement(UpdateAchievement(achievements, index, v1), index, v2)
      == UpdateAchievement(achievements, index, v2)
  {
  }

  /** The prefix put before the gap percentage */
  function GapPrefix(gap: real): string {
    if gap > 0.0 then "+" else ""
  }

  /** The `positive` flag of the gap row */
  function GapPositive(gap: real): bool {
    gap >= 0.0
  }

  /** The two displays of the gap row agree: a gap with a '+' is always
      flagged positive, a gap flagged negative never has a '+', and the only
      gap flagged positive without a '+' is zero. */
  lemma GapDisplay(gap: real)
    ensures GapPrefix(gap) == "+" ==> GapPositive(gap)
    ensures !GapPositive(gap) ==> GapPrefix(gap) == ""
    ensures GapPositive(gap) && GapPrefix(gap) == "" <==> gap == 0.0
  {
  }

  /** The gap the client receives: the server's gap percentage rounded to
      one decimal place. */
  function ShownGap(salary: real, median: real): (r: real)
    ensures Abs(r - Comparison.GapPercentage(salary, median)) <= 0.05
  {
    RoundToTenth(Comparison.GapPercentage(salary, median))
  }

  /** For a positive median, once the gap is more than 0.05 percent away
      from zero the row is flagged positive exactly when the salary is at
      least the median, and gets a '+' exactly when it is above it. Within
      0.05 percent, the boundary included, the gap is shown as 0: flagged positive, without a
      '+', whichever side of the median the salary is on. */
  lemma GapDisplayMatchesSalary(salary: real, median: real)
    requires median > 0.0
    ensures var gap := Comparison.GapPercentage(salary, median);
      Abs(gap) > 0.05 ==>
        (GapPositive(ShownGap(salary, median)) <==> salary >= median) &&
        (GapPrefix(ShownGap(salary, median)) == "+" <==> salary > median)
    ensures Abs(Comparison.GapPercentage(salary, median)) <= 0.05 ==>
      GapPositive(ShownGap(salary, median)) && GapPrefix(ShownGap(salary, median)) == ""
  {
    Comparison.GapSign(salary, median);
    RoundToTenthSign(Comparison.GapPercentage(salary, median));
  }

  /** 99,990 against a median of 100,000 is a gap of -0.01 percent, shown
      as 0 and flagged positive; 100,010 is +0.01 percent, shown without a
      '+'. */
  lemma NearMedianGapShownAsZero()
    ensures ShownGap(99990.0, 100000.0) == 0.0 && GapPositive(ShownGap(99990.0, 100000.0))
    ensures ShownGap(100010.0, 100000.0) == 0.0 && GapPrefix(ShownGap(100010.0, 100000.0)) == ""
  {
    assert Comparison.GapPercentage(99990.0, 100000.0) == -0.01;
    assert Comparison.GapPercentage(100010.0, 100000.0) == 0.01;
    RoundToTenthSign(-0.01);
    RoundToTenthSign(0.01);
  }

  datatype BorderColour = RedBorder | YellowBorder | GreenBorder | BlueBorder

  /** The left border of the recommendation card, from the status string */
  function Border(status: string): BorderColour {
    if status == "below_market" then RedBorder
    else if status == "below_median" then YellowBorder
    else if status == "competitive" then GreenBorder
    else BlueBorder
  }

  /** Each status the server sends gets its own colour, in order red,
      yellow, green, blue; any other string is blue. */
  lemma BorderOfStatus(s: Status, other: string)
    requires other != "below_market" && other != "below_median" && other != "competitive"
    ensures Border(s.Name()) == [RedBorder, YellowBorder, GreenBorder, BlueBorder][s.Quarter()]
    ensures Border(other) == BlueBorder
  {
  }

  datatype TextColour = Gray | RedText | GreenText | PrimaryText

  /** The value colour of `ResultRow`; `positive` is `None` when the prop
      is not passed. */
  function RowColour(highlight: bool, positive: Option<bool>): (c: TextColour)
    ensures !highlight <==> c == Gray
    ensures highlight ==> (c == RedText <==> positive == Some(false))
    ensures highlight ==> (c == GreenText <==> positive == Some(true))
    ensures highlight ==> (c == PrimaryText <==> positive.None?)
  {
    if !highlight then Gray
    else if positive == Some(false) then RedText
    else if positive.Some? && positive.value then GreenText
    else PrimaryText
  }

  /** The value colour of the gap row, which is always highlighted: for a
      positive median and a gap more than 0.05 percent from zero it is
      green exactly when the salary is at least the median and red exactly
      when it is below; it is never the neutral primary colour. */
  lemma GapRowColour(salary: real, median: real)
    requires median > 0.0
    ensures RowColour(true, Some(GapPositive(ShownGap(salary, median)))) != PrimaryText
    ensures var gap := Comparison.GapPercentage(salary, median);
      Abs(gap) > 0.05 ==>
        (RowColour(true, Some(GapPositive(ShownGap(salary, median)))) == GreenText <==> salary >= median) &&
        (RowColour(true, Some(GapPositive(ShownGap(salary, median)))) == RedText <==> salary < median)
  {
    GapDisplayMatchesSalary(salary, median);
  }

  /** The width of a `DistributionBar` in percent; JavaScript yields
      Infinity or NaN for a zero maximum, modelled as `None`. */
  function BarPercentage(value: real, max: real): (r: Option<real>)
    ensures r.None? <==> max == 0.0
    ensures r.Some? ==> r.value * max == value * 100.0
  {
    if max == 0.0 then None else Some((value / max) * 100.0)
  }

  /** The four bars of the distribution card are drawn against the 90th
      percentile: for a well-ordered distribution their widths are
      defined, never decrease from bar to bar, and the last is exactly 100. */
  lemma DistributionBars(q: Quartiles)
    requires WellOrdered(q)
    ensures BarPercentage(q.p90, q.p90) == Some(100.0)
    ensures var b25 := BarPercentage(q.p25, q.p90);
            var b50 := BarPercentage(q.median, q.p90);
            var b75 := BarPercentage(q.p75, q.p90);
            b25.Some? && b50.Some? && b75.Some? &&
            0.0 < b25.value <= b50.value <= b75.value <= 100.0
  {
    FractionBounds(q.p25, q.p90);
    FractionBounds(q.median, q.p90);
    FractionBounds(q.p75, q.p90);
    InterpolationMonotone(0.0, q.p90, 100.0, q.p25, q.median);
    InterpolationMonotone(0.0, q.p90, 100.0, q.median, q.p75);
    ProductBounds(q.p75 / q.p90, 100.0);
    assert q.p25 / q.p90 > 0.0 by {
      assert q.p25 / q.p90 * q.p90 == q.p25;
    }
  }
}

=== FILE: negotiation.dfy ===
/** The decisions and arithmetic of `generate_negotiation_script`: the
    achievements sentence, the increase and gap percentages, both
    percentile positions, and the wording bands of the market-data and
    ask sections. The market figures are an input. */
module Negotiation {
  import opened Wrappers
  import opened Text
  import opened Percentiles
  import opened Bands

  /** The request fields `generate_negotiation_script` insists on */
  const RequiredFields: set<string> :=
    {"current_salary", "target_salary", "job_title", "achievements"}

  /** What the achievements sentence says when no entry survives */
  const DefaultAchievements: string := "my consistent high performance"

  /** At most this many achievements are quoted */
  const AchievementLimit: nat := 5

  /** The achievements sentence: the non-blank entries, in order, at most
      five of them, joined by "; ". */
  function AchievementsText(achievements: seq<string>): (r: string)
    ensures |r| > 0
    ensures KeepNonBlank(achievements) == [] ==> r == DefaultAchievements
    ensures |KeepNonBlank(achievements)| == 1 ==> r == KeepNonBlank(achievements)[0]
  {
    Quote(KeepNonBlank(achievements))
  }

  /** The sentence for the entries that survived the filter */
  function Quote(kept: seq<string>): (r: string)
    requires forall i :: 0 <= i < |kept| ==> !IsBlank(kept[i])
    ensures |r| > 0
  {
    if |kept| == 0 then DefaultAchievements
    else
      var quoted := kept[..if |kept| < AchievementLimit then |kept| else AchievementLimit];
      JoinLength(quoted, "; ");
      assert !IsBlank(quoted[0]);
      Join(quoted, "; ")
  }

  /** While fewer than five entries have survived, one more non-blank
      entry is appended to the sentence after a "; ". */
  lemma AchievementsTextAppend(xs: seq<string>, b: string)
    requires 1 <= |KeepNonBlank(xs)| < AchievementLimit && !IsBlank(b)
    ensures AchievementsText(xs + [b]) == AchievementsText(xs) + "; " + b
  {
    KeepNonBlankAppend(xs, [b]);
    KeepNonBlankSingle(b);
    QuoteAppend(KeepNonBlank(xs), b);
  }

  lemma QuoteAppend(kept: seq<string>, b: string)
    requires forall i :: 0 <= i < |kept| ==> !IsBlank(kept[i])
    requires 1 <= |kept| < AchievementLimit && !IsBlank(b)
    ensures Quote(kept + [b]) == Quote(kept) + "; " + b
  {
    var all := kept + [b];
    assert Quote(all) == Join(all, "; ") by {
      assert all[..|all|] == all;
    }
    assert Quote(kept) == Join(kept, "; ") by {
      assert kept[..|kept|] == kept;
    }
    JoinAppend(kept, b, "; ");
  }

  /** A blank entry anywhere in the list changes nothing. */
  lemma BlankAchievementIgnored(xs: seq<string>, b: string, ys: seq<string>)
    requires IsBlank(b)
    ensures AchievementsText(xs + [b] + ys) == AchievementsText(xs + ys)
  {
    KeepNonBlankSkipsBlank(xs, b, ys);
  }

  /** Once five entries have survived, nothing after them is quoted. */
  lemma OnlyFirstFiveQuoted(xs: seq<string>, ys: seq<string>)
    requires |KeepNonBlank(xs)| >= AchievementLimit
    ensures AchievementsText(xs + ys) == AchievementsText(xs)
  {
    KeepNonBlankAppend(xs, ys);
    var k := KeepNonBlank(xs);
    var all := KeepNonBlank(xs + ys);
    assert all[..AchievementLimit] == k[..AchievementLimit];
  }

  /** Filtering on the client before the server filters again changes
      nothing about the sentence. */
  lemma ClientFilterIsHarmless(xs: seq<string>)
    ensures AchievementsText(KeepNonBlank(xs)) == AchievementsText(xs)
  {
    KeepNonBlankIdempotent(xs);
  }

  /** `((target - current) / current) * 100`, which raises on a zero
      current salary. */
  function IncreasePercent(current: real, target: real): (r: Result<real, Fault>)
    ensures r.Failure? <==> current == 0.0
    ensures r.Success? ==> current + current * r.value / 100.0 == target
  {
    if current == 0.0 then Failure(ZeroDivision)
    else Success(((target - current) / current) * 100.0)
  }

  /** For a positive current salary, the increase is positive exactly
      when the target is higher. */
  lemma IncreaseSign(current: real, target: real)
    requires current > 0.0
    ensures IncreasePercent(current, target).Success?
    ensures IncreasePercent(current, target).value > 0.0 <==> target > current
  {
    var r := IncreasePercent(current, target).value;
    assert current * r / 100.0 == target - current;
    if r > 0.0 { assert current * r > 0.0; }
    if r <= 0.0 { assert current * r <= 0.0; }
  }

  /** `gap_to_median_percent`: the median relative to the current salary,
      guarded by a positive current salary. */
  function GapToMedianPercent(current: real, median: real): (r: real)
    ensures current <= 0.0 ==> r == 0.0
    ensures current > 0.0 ==> current + current * r / 100.0 == median
  {
    if current > 0.0 then ((median - current) / current) * 100.0 else 0.0
  }

  datatype ScriptRequest = ScriptRequest(fields: set<string>, current: real, target: real,
                                         achievements: seq<string>)

  datatype ScriptError = MissingFields | Raised(fault: Fault)

  /** Everything the script's wording is chosen from. */
  datatype ScriptPlan = ScriptPlan(
    increasePercent: real,
    percentile: int,
    targetPercentile: int,
    position: MarketPosition,
    ask: AskJustification,
    achievementsText: string,
    increaseAmount: real,
    gapToMedian: real,
    gapToMedianPercent: real)

  /** The interpolation divides by zero for this salary */
  predicate PositionRaises(salary: real, q: Quartiles) {
    AboveAll(salary, q) && q.p90 == 0.0
  }

  /** `generate_negotiation_script` against the market figures `q`. */
  function NegotiationScript(req: ScriptRequest, q: Quartiles): (r: Result<ScriptPlan, ScriptError>)
    ensures r == Failure(MissingFields) <==> !(RequiredFields <= req.fields)
    ensures r.Failure? <==>
      !(RequiredFields <= req.fields) || req.current == 0.0 ||
      PositionRaises(req.current, q) || PositionRaises(req.target, q)
    ensures r.Success? ==> req.current != 0.0
    ensures r.Success? ==> r.value.position.Quarter() == StatusOf(r.value.percentile as real).Quarter()
    ensures r.Success? ==> r.value.gapToMedian + req.current == q.median
    ensures r.Success? ==>
      r.value.percentile == PercentilePosition(req.current, q).value &&
      r.value.targetPercentile == PercentilePosition(req.target, q).value
    ensures r.Success? ==>
      r.value.increasePercent == IncreasePercent(req.current, req.target).value &&
      r.value.increaseAmount + req.current == req.target
    ensures r.Success? ==> r.value.ask == AskJustificationOf(req.target, q, r.value.targetPercentile)
    ensures r.Success? ==> r.value.achievementsText == AchievementsText(req.achievements)
    ensures r.Success? ==> r.value.gapToMedianPercent == GapToMedianPercent(req.current, q.median)
  {
    if !(RequiredFields <= req.fields) then Failure(MissingFields)
    else
      match IncreasePercent(req.current, req.target)
      case Failure(f) => Failure(Raised(f))
      case Success(increase) =>
        match PercentilePosition(req.current, q)
        case Failure(f) => Failure(Raised(f))
        case Success(percentile) =>
          match PercentilePosition(req.target, q)
          case Failure(f) => Failure(Raised(f))
          case Success(targetPercentile) =>
            ClassifiersAgree(percentile, 0.0, 0.0);
            Success(ScriptPlan(
              increase,
              percentile,
              targetPercentile,
              MarketPositionOf(percentile),
              AskJustificationOf(req.target, q, targetPercentile),
              AchievementsText(req.achievements),
              req.target - req.current,
              q.median - req.current,
              GapToMedianPercent(req.current, q.median)))
  }

  /** With well-ordered market figures and a non-zero current salary the
      script is always produced, both positions lie in [1,99], and a
      higher target never gets a lower percentile than the current
      salary. */
  lemma ScriptForOrderedMarket(req: ScriptRequest, q: Quartiles)
    requires RequiredFields <= req.fields && req.current != 0.0 && WellOrdered(q)
    requires req.current <= req.target
    ensures NegotiationScript(req, q).Success?
    ensures var p := NegotiationScript(req, q).value;
      1 <= p.percentile <= p.targetPercentile <= 99
  {
    PositionBands(req.current, q);
    PositionBands(req.target, q);
    PositionMonotone(req.current, req.target, q);
  }

  /** The market figures used when every query fails */
  const DefaultMarket: Quartiles := Quartiles(70000.0, 90000.0, 115000.0, 140000.0)

  /** With the default figures the script is produced for every non-zero
      current salary. */
  lemma DefaultMarketScript(req: ScriptRequest)
    requires RequiredFields <= req.fields && req.current != 0.0
    ensures NegotiationScript(req, DefaultMarket).Success?
  {
    var q := DefaultMarket;
    assert WellOrdered(q);
    PositionBands(req.current, q);
    PositionBands(req.target, q);
    assert !PositionRaises(req.current, q) && !PositionRaises(req.target, q);
  }

  /** Two positions against the default figures: 80,000 lies a half of the
      way from the 25th percentile to the median, so 25 + 12.5, truncated,
      gives 37; 150,000 lies a fourteenth above the 90th percentile, which
      adds int(0.71...) = 0 to 90. */
  lemma DefaultMarketPositions()
    ensures PercentilePosition(80000.0, DefaultMarket) == Success(37)
    ensures PercentilePosition(150000.0, DefaultMarket) == Success(90)
  {
    var q := DefaultMarket;
    assert Interpolate(25.0, 25.0, q.p25, q.median, 80000.0, 37.0) == 37.5;
  }
}

=== FILE: percentiles.dfy ===
/** Percentile interpolation: `calculate_percentile_position` (truncated to
    an integer, used for negotiation scripts) and the company-adjusted
    percentile of `compare_salary` (not truncated). Both map a salary
    piecewise-linearly onto the bands [1,25], [25,50], [50,75], [75,90]
    and [90,99] using the 25th, 50th, 75th and 90th percentiles. */
module Percentiles {
  import opened Wrappers

  /** Python's `int()` on a float: truncation toward zero. */
  function Trunc(x: real): (r: int)
    ensures 0.0 <= x ==> r as real <= x < r as real + 1.0
    ensures x < 0.0 ==> r as real - 1.0 < x <= r as real
  {
    if x >= 0.0 then x.Floor else -((-x).Floor)
  }

  /** Bounds of a fraction with a positive denominator */
  lemma FractionBounds(x: real, d: real)
    requires d > 0.0
    ensures 0.0 <= x ==> 0.0 <= x / d
    ensures x <= d ==> x / d <= 1.0
    ensures x < d ==> x / d < 1.0
  {
    assert x / d * d == x;
  }

  /** Scaling a numerator scales the quotient. */
  lemma ScaleQuotient(k: real, x: real, d: real)
    requires d != 0.0
    ensures k * x / d == x / d * k
  {
    assert x / d * d == x;
    assert (x / d * k) * d == k * x;
  }

  /** Bounds of a product with a positive factor */
  lemma ProductBounds(f: real, k: real)
    requires k > 0.0
    ensures 0.0 <= f ==> 0.0 <= f * k
    ensures f <= 1.0 ==> f * k <= k
    ensures f < 1.0 ==> f * k < k
  {
  }

  lemma TruncMonotone(x: real, y: real)
    requires x <= y
    ensures Trunc(x) <= Trunc(y)
  {
  }

  /** The exception an unguarded division by zero raises */
  datatype Fault = ZeroDivision

  /** The reference points of a salary distribution */
  datatype Quartiles = Quartiles(p25: real, median: real, p75: real, p90: real)

  /** What the interpolation assumes of its inputs: a positive 25th
      percentile and non-decreasing reference points. */
  predicate WellOrdered(q: Quartiles) {
    0.0 < q.p25 <= q.median <= q.p75 <= q.p90
  }

  /** Every reference point multiplied by a company's multiplier */
  function Scale(q: Quartiles, k: real): (r: Quartiles)
    requires k > 0.0
    ensures WellOrdered(q) ==> WellOrdered(r)
  {
    ScaleOrdered(q.p25, q.median, k);
    ScaleOrdered(q.median, q.p75, k);
    ScaleOrdered(q.p75, q.p90, k);
    Quartiles(q.p25 * k, q.median * k, q.p75 * k, q.p90 * k)
  }

  /** Multiplying by a positive factor keeps signs and order. */
  lemma ScaleOrdered(a: real, b: real, k: real)
    requires k > 0.0
    ensures 0.0 < a ==> 0.0 < a * k
    ensures a <= b ==> a * k <= b * k
  {
    assert b * k - a * k == (b - a) * k;
  }

  /** The salary lies above all four reference points, where the top band
      divides by the 90th percentile. */
  predicate AboveAll(salary: real, q: Quartiles) {
    salary > q.p25 && salary > q.median && salary > q.p75 && salary > q.p90
  }

  /** `calculate_percentile_position`. Each branch is taken by the first
      of `salary <= p25`, `<= median`, `<= p75`, `<= p90` that holds; the
      top branch divides by the 90th percentile without a guard. */
  function PercentilePosition(salary: real, q: Quartiles): (r: Result<int, Fault>)
    ensures r.Failure? <==> AboveAll(salary, q) && q.p90 == 0.0
    ensures salary <= q.p25 ==> r.Success? && 1 <= r.value <= 25
    ensures q.p25 < salary <= q.median ==> r.Success? && 25 <= r.value <= 50
    ensures q.p25 < salary && q.median < salary <= q.p75 ==> r.Success? && 50 <= r.value <= 75
    ensures q.p25 < salary && q.median < salary && q.p75 < salary <= q.p90 ==>
      r.Success? && 75 <= r.value <= 90
    ensures AboveAll(salary, q) && q.p90 > 0.0 ==> r.Success? && 90 <= r.value <= 99
  {
    if salary <= q.p25 then
      var pct := if q.p25 > 0.0 then (salary / q.p25) * 25.0 else 10.0;
      Success(Max(1, Min(25, Trunc(pct))))
    else if salary <= q.median then
      Success(Trunc(Interpolate(25.0, 25.0, q.p25, q.median, salary, 37.0)))
    else if salary <= q.p75 then
      Success(Trunc(Interpolate(50.0, 25.0, q.median, q.p75, salary, 62.0)))
    else if salary <= q.p90 then
      Success(Trunc(Interpolate(75.0, 15.0, q.p75, q.p90, salary, 82.0)))
    else if q.p90 == 0.0 then
      Failure(ZeroDivision)
    else
      var above := (salary - q.p90) / q.p90 * 10.0;
      assert q.p90 > 0.0 ==> above > 0.0;
      Success(Min(99, 90 + Trunc(above)))
  }

  /** One interpolation band: `base + (salary - lo) / (hi - lo) * span`
      when the band has positive width, else the fixed `fallback`. */
  function Interpolate(base: real, span: real, lo: real, hi: real, salary: real, fallback: real): (r: real)
    requires span > 0.0
    ensures hi - lo <= 0.0 ==> r == fallback
    ensures lo < hi && lo <= salary <= hi ==> base <= r <= base + span
    ensures lo < hi && lo <= salary < hi ==> r < base + span
  {
    if hi - lo > 0.0 then
      var f := (salary - lo) / (hi - lo);
      FractionBounds(salary - lo, hi - lo);
      ProductBounds(f, span);
      assert lo <= salary <= hi ==> 0.0 <= f * span <= span;
      base + f * span
    else fallback
  }

  lemma InterpolateMonotone(base: real, span: real, lo: real, hi: real, s1: real, s2: real, fallback: real)
    requires span > 0.0 && s1 <= s2
    ensures Interpolate(base, span, lo, hi, s1, fallback) <= Interpolate(base, span, lo, hi, s2, fallback)
  {
    var i1 := Interpolate(base, span, lo, hi, s1, fallback);
    var i2 := Interpolate(base, span, lo, hi, s2, fallback);
    if hi - lo > 0.0 {
      InterpolationMonotone(lo, hi - lo, span, s1, s2);
      assert i1 == base + (s1 - lo) / (hi - lo) * span;
      assert i2 == base + (s2 - lo) / (hi - lo) * span;
    } else {
      assert i1 == fallback && i2 == fallback;
    }
  }

  function Min(a: int, b: int): int {
    if a <= b then a else b
  }

  function Max(a: int, b: int): int {
    if a >= b then a else b
  }

  function MinReal(a: real, b: real): real {
    if a <= b then a else b
  }

  function MaxReal(a: real, b: real): real {
    if a >= b then a else b
  }

  /** For a well-ordered distribution the position is always defined,
      lies in [1,99], and its band is the interval the salary falls in. */
  lemma PositionBands(salary: real, q: Quartiles)
    requires WellOrdered(q)
    ensures PercentilePosition(salary, q).Success?
    ensures 1 <= PercentilePosition(salary, q).value <= 99
    ensures salary <= q.p25 ==> PercentilePosition(salary, q).value <= 25
    ensures q.p25 < salary <= q.median ==> 25 <= PercentilePosition(salary, q).value <= 50
    ensures q.median < salary <= q.p75 ==> 50 <= PercentilePosition(salary, q).value <= 75
    ensures q.p75 < salary <= q.p90 ==> 75 <= PercentilePosition(salary, q).value <= 90
    ensures q.p90 < salary ==> 90 <= PercentilePosition(salary, q).value
  {
  }

  /** The top branch is only bounded below for a positive 90th percentile:
      against a negative one the division flips the sign, and 100 lands at
      90 + int(-1010) = -920. */
  lemma NegativeTopBand()
    ensures PercentilePosition(100.0, Quartiles(-10.0, -10.0, -10.0, -1.0)) == Success(-920)
  {
    assert (100.0 - (-1.0)) / (-1.0) * 10.0 == -1010.0;
  }

  /** A linear interpolation step with a positive width is monotone. */
  lemma InterpolationMonotone(lo: real, width: real, scale: real, s1: real, s2: real)
    requires width > 0.0 && scale >= 0.0 && s1 <= s2
    ensures (s1 - lo) / width * scale <= (s2 - lo) / width * scale
  {
    var d1 := (s1 - lo) / width;
    var d2 := (s2 - lo) / width;
    assert d2 - d1 == (s2 - s1) / width;
    assert d1 <= d2;
  }

  /** Which interval of a well-ordered distribution a salary falls in,
      with the upper end of each interval included. */
  function Interval(salary: real, q: Quartiles): nat {
    if salary <= q.p25 then 0
    else if salary <= q.median then 1
    else if salary <= q.p75 then 2
    else if salary <= q.p90 then 3
    else 4
  }

  /** A higher salary never gets a lower percentile position. */
  lemma PositionMonotone(s1: real, s2: real, q: Quartiles)
    requires WellOrdered(q) && s1 <= s2
    ensures PercentilePosition(s1, q).Success? && PercentilePosition(s2, q).Success?
    ensures PercentilePosition(s1, q).value <= PercentilePosition(s2, q).value
  {
    PositionBands(s1, q);
    PositionBands(s2, q);
    if Interval(s1, q) == Interval(s2, q) {
      match Interval(s1, q)
      case 0 =>
        InterpolationMonotone(0.0, q.p25, 25.0, s1, s2);
        TruncMonotone((s1 / q.p25) * 25.0, (s2 / q.p25) * 25.0);
      case 1 =>
        InterpolateMonotone(25.0, 25.0, q.p25, q.median, s1, s2, 37.0);
      case 2 =>
        InterpolateMonotone(50.0, 25.0, q.median, q.p75, s1, s2, 62.0);
      case 3 =>
        InterpolateMonotone(75.0, 15.0, q.p75, q.p90, s1, s2, 82.0);
      case 4 =>
        InterpolationMonotone(q.p90, q.p90, 10.0, s1, s2);
    }
  }

  /** The company-adjusted percentile of `compare_salary`, against the
      company figures `q`. Each branch is taken by the first of
      `salary >= p90`, `>= p75`, `>= median`, `>= p25` that holds; every
      division is guarded and the result is not truncated. */
  function CompanyPercentile(salary: real, q: Quartiles): (r: real)
    ensures 1.0 <= r <= 99.0
    ensures salary >= q.p90 ==> 90.0 <= r
    ensures q.p75 <= salary < q.p90 ==> 75.0 <= r < 90.0
    ensures q.median <= salary < q.p75 && salary < q.p90 ==> 50.0 <= r < 75.0
    ensures q.p25 <= salary < q.median && salary < q.p75 && salary < q.p90 ==> 25.0 <= r < 50.0
    ensures salary < q.p25 && salary < q.median && salary < q.p75 && salary < q.p90 ==> r < 25.0
  {
    if salary >= q.p90 then TopBand(salary, q.p90)
    else if salary >= q.p75 then
      Interpolate(75.0, 15.0, q.p75, q.p90, salary, 82.0)
    else if salary >= q.median then
      Interpolate(50.0, 25.0, q.median, q.p75, salary, 62.0)
    else if salary >= q.p25 then
      Interpolate(25.0, 25.0, q.p25, q.median, salary, 37.0)
    else BottomBand(salary, q.p25)
  }

  /** The company band from the 90th percentile up: ten points for every
      fifth of the 90th percentile above it, capped at 99, or 95 when that
      percentile is not positive. */
  function TopBand(salary: real, p90: real): (r: real)
    requires salary >= p90
    ensures 90.0 <= r <= 99.0
    ensures p90 <= 0.0 ==> r == 95.0
  {
    if p90 > 0.0 then
      FractionBounds(10.0 * (salary - p90), p90 * 0.2);
      MinReal(99.0, 90.0 + (10.0 * (salary - p90) / (p90 * 0.2)))
    else 95.0
  }

  /** The company band below the 25th percentile: proportional to the
      salary, at least 1, or 10 when that percentile is not positive. */
  function BottomBand(salary: real, p25: real): (r: real)
    requires salary < p25
    ensures 1.0 <= r < 25.0
    ensures p25 <= 0.0 ==> r == 10.0
  {
    if p25 > 0.0 then
      FractionBounds(salary, p25);
      ProductBounds(salary / p25, 25.0);
      ScaleQuotient(25.0, salary, p25);
      MaxReal(1.0, 25.0 * salary / p25)
    else 10.0
  }

  /** Against a well-ordered distribution, the company percentile lies in
      the band of the interval the salary falls in. */
  lemma CompanyPercentileBands(salary: real, q: Quartiles)
    requires WellOrdered(q)
    ensures salary < q.p25 ==> CompanyPercentile(salary, q) < 25.0
    ensures q.p25 <= salary < q.median ==> 25.0 <= CompanyPercentile(salary, q) < 50.0
    ensures q.median <= salary < q.p75 ==> 50.0 <= CompanyPercentile(salary, q) < 75.0
    ensures q.p75 <= salary < q.p90 ==> 75.0 <= CompanyPercentile(salary, q) < 90.0
    ensures q.p90 <= salary ==> 90.0 <= CompanyPercentile(salary, q)
  {
  }

  /** The company percentile is below 50 exactly when the salary is below
      the company median (for a well-ordered distribution). */
  lemma CompanyPercentileBelowHalf(salary: real, q: Quartiles)
    requires WellOrdered(q)
    ensures CompanyPercentile(salary, q) < 50.0 <==> salary < q.median
  {
  }

  /** A higher salary never gets a lower company percentile. */
  lemma CompanyPercentileMonotone(s1: real, s2: real, q: Quartiles)
    requires WellOrdered(q) && s1 <= s2
    ensures CompanyPercentile(s1, q) <= CompanyPercentile(s2, q)
  {
    if s1 < q.p25 && s2 < q.p25 {
      InterpolationMonotone(0.0, q.p25, 25.0, s1, s2);
      ScaleQuotient(25.0, s1 - 0.0, q.p25);
      ScaleQuotient(25.0, s2 - 0.0, q.p25);
    } else if q.p25 <= s1 && s2 < q.median {
      InterpolateMonotone(25.0, 25.0, q.p25, q.median, s1, s2, 37.0);
    } else if q.median <= s1 && s2 < q.p75 {
      InterpolateMonotone(50.0, 25.0, q.median, q.p75, s1, s2, 62.0);
    } else if q.p75 <= s1 && s2 < q.p90 {
      InterpolateMonotone(75.0, 15.0, q.p75, q.p90, s1, s2, 82.0);
    } else if q.p90 <= s1 {
      InterpolationMonotone(q.p90, q.p90 * 0.2, 10.0, s1, s2);
      ScaleQuotient(10.0, s1 - q.p90, q.p90 * 0.2);
      ScaleQuotient(10.0, s2 - q.p90, q.p90 * 0.2);
    } else {
      CompanyPercentileBands(s1, q);
      CompanyPercentileBands(s2, q);
    }
  }
}

=== FILE: rounding.dfy ===
/** Python's `round`, on exact reals: to the nearest integer and to one
    decimal place, ties going to the even neighbour. */
module Rounding {

  function Abs(x: real): real {
    if x >= 0.0 then x else -x
  }

  /** Python's `round(x)`: the nearest integer, ties going to the even one. */
  function RoundHalfEven(x: real): (r: int)
    ensures Abs(r as real - x) <= 0.5
    ensures Abs(r as real - x) == 0.5 ==> r % 2 == 0
  {
    var f := x.Floor;
    var d := x - f as real;
    if d < 0.5 then f
    else if d > 0.5 then f + 1
    else if f % 2 == 0 then f
    else f + 1
  }

  /** Python's `round(x, 1)`: a whole number of tenths within 0.05 of `x`. */
  function RoundToTenth(x: real): (r: real)
    ensures (r * 10.0).Floor as real == r * 10.0
    ensures Abs(r - x) <= 0.05
    ensures Abs(r - x) == 0.05 ==> (r * 10.0).Floor % 2 == 0
  {
    var k := RoundHalfEven(x * 10.0);
    assert Abs(k as real - x * 10.0) == Abs(k as real / 10.0 - x) * 10.0;
    assert (k as real / 10.0) * 10.0 == k as real;
    k as real / 10.0
  }

  /** A value within 0.05 of zero, the boundary included (a tie goes to
      the even 0), is shown as 0; beyond 0.05 the rounded value keeps the
      sign of the value. */
  lemma RoundToTenthSign(x: real)
    ensures Abs(x) <= 0.05 ==> RoundToTenth(x) == 0.0
    ensures x > 0.05 ==> RoundToTenth(x) > 0.0
    ensures x < -0.05 ==> RoundToTenth(x) < 0.0
  {
    var r := RoundToTenth(x);
    var k := (r * 10.0).Floor;
    assert k as real == r * 10.0;
    if Abs(x) <= 0.05 {
      assert -1 <= k <= 1;
      assert k != 0 ==> Abs(r - x) == 0.05;
    }
  }
}

=== FILE: sample_data.dfy ===
/** The two pure steps of `insert_snowflake_sample_data`: the experience
    multiplier and the final rounding to the nearest thousand. The random
    draws around them are not modelled. */
module SampleData {
  import opened Rounding

  /** The experience multiplier, piecewise linear in the years of
      experience: 0.075 per year up to 2, 0.05 up to 6, 0.035 up to 12 and
      0.05 beyond. */
  function ExperienceMultiplier(years: int): real {
    if years <= 2 then 0.85 + (years as real * 0.075)
    else if years <= 6 then 1.0 + ((years - 2) as real * 0.05)
    else if years <= 12 then 1.20 + ((years - 6) as real * 0.035)
    else 1.40 + ((years - 12) as real * 0.05)
  }

  /** Entry level starts at 0.85 and reaches 1.0 at two years; at twelve
      years the formula gives 1.41, not the 1.40 its comment names as the
      senior ceiling; fifteen years, the most drawn, gives 1.55. */
  lemma ExperienceMultiplierLandmarks()
    ensures ExperienceMultiplier(0) == 0.85
    ensures ExperienceMultiplier(2) == 1.0
    ensures ExperienceMultiplier(6) == 1.20
    ensures ExperienceMultiplier(12) == 1.41
    ensures ExperienceMultiplier(15) == 1.55
  {
  }

  /** The multiplier is strictly increasing in the years of experience:
      each piece rises, and adjacent pieces meet or step up at 2, 6 and 12
      years. */
  lemma ExperienceMultiplierIncreasing(a: int, b: int)
    requires a < b
    ensures ExperienceMultiplier(a) < ExperienceMultiplier(b)
  {
  }

  /** Over the drawn range 0..15 the multiplier stays within [0.85, 1.55]. */
  lemma ExperienceMultiplierRange(years: int)
    requires 0 <= years <= 15
    ensures 0.85 <= ExperienceMultiplier(years) <= 1.55
  {
    if years > 0 { ExperienceMultiplierIncreasing(0, years); }
    if years < 15 { ExperienceMultiplierIncreasing(years, 15); }
  }

  /** `round(base / 1000) * 1000` */
  function RoundToThousand(base: real): (r: int)
    ensures r % 1000 == 0
    ensures Abs(r as real - base) <= 500.0
    ensures Abs(r as real - base) == 500.0 ==> (r / 1000) % 2 == 0
  {
    var k := RoundHalfEven(base / 1000.0);
    assert Abs(k as real * 1000.0 - base) == Abs(k as real - base / 1000.0) * 1000.0;
    k * 1000
  }

  /** A whole number of thousands is left as it is. */
  lemma RoundToThousandKeepsThousands(k: int)
    ensures RoundToThousand(k as real * 1000.0) == k * 1000
  {
    assert (k as real * 1000.0) / 1000.0 == k as real;
  }

  /** Rounding a rounded salary again changes nothing. */
  lemma RoundToThousandIdempotent(base: real)
    ensures RoundToThousand(RoundToThousand(base) as real) == RoundToThousand(base)
  {
    var r := RoundToThousand(base);
    RoundToThousandKeepsThousands(r / 1000);
    assert (r / 1000) as real * 1000.0 == r as real;
  }
}

=== FILE: text.dfy ===
/** String helpers shared by the backend and the client: whitespace,
    ASCII lower-casing, trimming, substring search, joining and the
    "drop blank entries" filter.

    Python's `str.strip()` and JavaScript's `String.prototype.trim()` are
    both modelled by `Strip`, over the whitespace set `IsSpace`. */
module Text {

  predicate IsSpace(c: char) {
    c == ' ' || c == '\t' || c == '\n' || c == '\r' || c == '\U{0B}' || c == '\U{0C}'
  }

  predicate AllSpace(s: string) {
    forall i :: 0 <= i < |s| ==> IsSpace(s[i])
  }

  function LowerChar(c: char): char {
    if 'A' <= c <= 'Z' then (c as int - 'A' as int + 'a' as int) as char else c
  }

  /** Python's `str.lower()`, restricted to ASCII letters */
  function ToLower(s: string): (r: string)
    ensures |r| == |s|
    ensures forall i :: 0 <= i < |s| ==> r[i] == LowerChar(s[i])
  {
    seq(|s|, i requires 0 <= i < |s| => LowerChar(s[i]))
  }

  lemma LowerCharKeepsSpace(c: char)
    ensures IsSpace(LowerChar(c)) <==> IsSpace(c)
  {
  }

  /** Drops leading whitespace: the result is the suffix of `s` that starts
      at its first non-space character. */
  function StripLeft(s: string): (r: string)
    ensures |r| <= |s| && r == s[|s| - |r|..]
    ensures AllSpace(s[..|s| - |r|])
    ensures |r| > 0 ==> !IsSpace(r[0])
  {
    if |s| == 0 then s
    else if IsSpace(s[0]) then
      var r := StripLeft(s[1..]);
      assert s[..|s| - |r|] == [s[0]] + s[1..][..|s| - 1 - |r|];
      r
    else s
  }

  /** Drops trailing whitespace: the result is the prefix of `s` that ends
      at its last non-space character. */
  function StripRight(s: string): (r: string)
    ensures |r| <= |s| && r == s[..|r|]
    ensures AllSpace(s[|r|..])
    ensures |r| > 0 ==> !IsSpace(r[|r| - 1])
  {
    if |s| == 0 then s
    else if IsSpace(s[|s| - 1]) then
      var r := StripRight(s[..|s| - 1]);
      assert s[|r|..] == s[..|s| - 1][|r|..] + [s[|s| - 1]];
      r
    else s
  }

  /** Python's `str.strip()` / JavaScript's `trim()` */
  function Strip(s: string): (r: string)
    ensures |r| <= |s|
    ensures |r| > 0 ==> !IsSpace(r[0]) && !IsSpace(r[|r| - 1])
  {
    StripRight(StripLeft(s))
  }

  /** A string is blank when nothing is left of it after trimming; in both
      Python and JavaScript such a string is falsy after `strip`/`trim`. */
  predicate IsBlank(s: string) {
    Strip(s) == ""
  }

  lemma StripLeftEmptyIffAllSpace(s: string)
    ensures StripLeft(s) == "" <==> AllSpace(s)
    decreases |s|
  {
    if |s| > 0 && IsSpace(s[0]) {
      StripLeftEmptyIffAllSpace(s[1..]);
      assert AllSpace(s) <==> AllSpace(s[1..]) by {
        if AllSpace(s[1..]) {
          forall i | 0 <= i < |s| ensures IsSpace(s[i]) {
            if i > 0 { assert s[i] == s[1..][i - 1]; }
          }
        }
      }
    }
  }

  /** Blank means: every character is whitespace (the empty string included). */
  lemma BlankIffAllSpace(s: string)
    ensures IsBlank(s) <==> AllSpace(s)
  {
    StripLeftEmptyIffAllSpace(s);
  }

  /** Leading whitespace never matters to `StripLeft`. */
  lemma {:induction false} StripLeftSkipsSpace(w: string, s: string)
    requires AllSpace(w)
    ensures StripLeft(w + s) == StripLeft(s)
    decreases |w|
  {
    if |w| > 0 {
      assert (w + s)[1..] == w[1..] + s;
      StripLeftSkipsSpace(w[1..], s);
    } else {
      assert w + s == s;
    }
  }

  /** Trailing whitespace never matters to `StripRight`. */
  lemma {:induction false} StripRightSkipsSpace(s: string, w: string)
    requires AllSpace(w)
    ensures StripRight(s + w) == StripRight(s)
    decreases |w|
  {
    if |w| > 0 {
      var w' := w[..|w| - 1];
      assert (s + w)[..|s + w| - 1] == s + w';
      StripRightSkipsSpace(s, w');
    } else {
      assert s + w == s;
    }
  }

  /** Appending anything to a string that still has a non-space character
      appends it, unchanged, to the left-stripped string. */
  lemma {:induction false} StripLeftAppend(s: string, w: string)
    requires !AllSpace(s)
    ensures StripLeft(s + w) == StripLeft(s) + w
    decreases |s|
  {
    assert |s| > 0;
    if IsSpace(s[0]) {
      assert !AllSpace(s[1..]) by {
        var j :| 0 <= j < |s| && !IsSpace(s[j]);
        assert s[1..][j - 1] == s[j];
      }
      assert (s + w)[1..] == s[1..] + w;
      StripLeftAppend(s[1..], w);
    }
  }

  /** Surrounding whitespace never changes what `Strip` returns. */
  lemma StripIgnoresPadding(w1: string, s: string, w2: string)
    requires AllSpace(w1) && AllSpace(w2)
    ensures Strip(w1 + s + w2) == Strip(s)
  {
    assert w1 + s + w2 == w1 + (s + w2);
    StripLeftSkipsSpace(w1, s + w2);
    if AllSpace(s) {
      assert AllSpace(s + w2) by {
        forall i | 0 <= i < |s + w2| ensures IsSpace((s + w2)[i]) {
          if i >= |s| { assert (s + w2)[i] == w2[i - |s|]; }
        }
      }
      StripLeftEmptyIffAllSpace(s + w2);
      StripLeftEmptyIffAllSpace(s);
    } else {
      StripLeftAppend(s, w2);
      StripRightSkipsSpace(StripLeft(s), w2);
    }
  }

  /** Stripping twice is stripping once. */
  lemma StripIdempotent(s: string)
    ensures Strip(Strip(s)) == Strip(s)
  {
    var r := Strip(s);
    if |r| > 0 {
      assert StripLeft(r) == r;
      assert StripRight(r) == r;
    }
  }

  lemma {:induction false} LowerStripLeft(s: string)
    ensures ToLower(StripLeft(s)) == StripLeft(ToLower(s))
    decreases |s|
  {
    if |s| > 0 {
      LowerCharKeepsSpace(s[0]);
      assert ToLower(s)[0] == LowerChar(s[0]);
      if IsSpace(s[0]) {
        assert ToLower(s)[1..] == ToLower(s[1..]);
        LowerStripLeft(s[1..]);
      }
    }
  }

  lemma {:induction false} LowerStripRight(s: string)
    ensures ToLower(StripRight(s)) == StripRight(ToLower(s))
    decreases |s|
  {
    if |s| > 0 {
      var n := |s| - 1;
      LowerCharKeepsSpace(s[n]);
      assert ToLower(s)[n] == LowerChar(s[n]);
      if IsSpace(s[n]) {
        assert ToLower(s)[..n] == ToLower(s[..n]);
        LowerStripRight(s[..n]);
      }
    }
  }

  /** Lower-casing and trimming commute, so `s.strip().lower().strip()`
      is `s.lower().strip()`. */
  lemma LowerStripCommute(s: string)
    ensures ToLower(Strip(s)) == Strip(ToLower(s))
  {
    LowerStripLeft(s);
    LowerStripRight(StripLeft(s));
  }

  predicate IsPrefix(a: string, b: string) {
    |a| <= |b| && b[..|a|] == a
  }

  /** Python's `a in b` on strings: `a` occurs contiguously in `b`. */
  predicate IsSubstring(a: string, b: string)
    decreases |b|
  {
    IsPrefix(a, b) || (|b| > 0 && IsSubstring(a, b[1..]))
  }

  /** Python's `sep.join(xs)` */
  function Join(xs: seq<string>, sep: string): (r: string)
    decreases |xs|
  {
    if |xs| == 0 then ""
    else if |xs| == 1 then xs[0]
    else xs[0] + sep + Join(xs[1..], sep)
  }

  function TotalLength(xs: seq<string>): nat
  {
    if |xs| == 0 then 0 else |xs[0]| + TotalLength(xs[1..])
  }

  /** The joined string is exactly the pieces plus one separator between
      each adjacent pair. */
  lemma {:induction false} JoinLength(xs: seq<string>, sep: string)
    requires |xs| > 0
    ensures |Join(xs, sep)| == TotalLength(xs) + (|xs| - 1) * |sep|
    decreases |xs|
  {
    if |xs| > 1 {
      JoinLength(xs[1..], sep);
    }
  }

  /** The entries a form keeps: JavaScript's `xs.filter(a => a.trim())`
      and Python's `[a for a in xs if a and a.strip()]`. */
  function KeepNonBlank(xs: seq<string>): (r: seq<string>)
    ensures |r| <= |xs|
    ensures forall i :: 0 <= i < |r| ==> !IsBlank(r[i])
    ensures forall x :: x in r ==> x in xs
    ensures forall x :: x in xs && !IsBlank(x) ==> x in r
  {
    if |xs| == 0 then []
    else
      var rest := KeepNonBlank(xs[1..]);
      assert forall x :: x in xs[1..] ==> x in xs;
      assert forall x :: x in xs ==> x == xs[0] || x in xs[1..];
      if IsBlank(xs[0]) then rest else [xs[0]] + rest
  }

  /** Filtering a concatenation filters each part: together with the
      one-element cases this pins the filter down as "keep the non-blank
      entries, in their original order". */
  lemma {:induction false} KeepNonBlankAppend(xs: seq<string>, ys: seq<string>)
    ensures KeepNonBlank(xs + ys) == KeepNonBlank(xs) + KeepNonBlank(ys)
    decreases |xs|
  {
    if |xs| == 0 {
      assert xs + ys == ys;
    } else {
      assert (xs + ys)[0] == xs[0];
      assert (xs + ys)[1..] == xs[1..] + ys;
      KeepNonBlankAppend(xs[1..], ys);
    }
  }

  /** Filtering what was already filtered changes nothing. */
  lemma {:induction false} KeepNonBlankIdempotent(xs: seq<string>)
    ensures KeepNonBlank(KeepNonBlank(xs)) == KeepNonBlank(xs)
    decreases |xs|
  {
    if |xs| > 0 {
      KeepNonBlankIdempotent(xs[1..]);
      if !IsBlank(xs[0]) {
        var rest := KeepNonBlank(xs[1..]);
        assert ([xs[0]] + rest)[0] == xs[0];
        assert ([xs[0]] + rest)[1..] == rest;
      }
    }
  }

  /** A blank entry anywhere in the list is dropped without a trace. */
  lemma KeepNonBlankSkipsBlank(xs: seq<string>, b: string, ys: seq<string>)
    requires IsBlank(b)
    ensures KeepNonBlank(xs + [b] + ys) == KeepNonBlank(xs + ys)
  {
    KeepNonBlankAppend(xs + [b], ys);
    KeepNonBlankAppend(xs, [b]);
    KeepNonBlankAppend(xs, ys);
    assert KeepNonBlank([b]) == [];
    assert KeepNonBlank(xs) + [] == KeepNonBlank(xs);
  }

  /** Joining one more piece appends the separator and the piece. */
  lemma {:induction false} JoinAppend(xs: seq<string>, x: string, sep: string)
    requires |xs| > 0
    ensures Join(xs + [x], sep) == Join(xs, sep) + sep + x
    decreases |xs|
  {
    if |xs| == 1 {
      assert (xs + [x])[1..] == [x];
    } else {
      assert (xs + [x])[1..] == xs[1..] + [x];
      JoinAppend(xs[1..], x, sep);
    }
  }

  /** A single non-blank entry is kept. */
  lemma KeepNonBlankSingle(x: string)
    requires !IsBlank(x)
    ensures KeepNonBlank([x]) == [x]
  {
    assert [x][1..] == [];
  }
}

=== FILE: wrappers.dfy ===
/** Optional values and error-carrying results shared by the whole model.
    Python's `None` becomes `None`; an exception the backend raises (or a
    Flask error response it returns) becomes a `Failure`. */
module Wrappers {

  datatype Option<+T> = None | Some(value: T)

  datatype Result<+T, +E> = Success(value: T) | Failure(error: E)

  /** Index of the first element of `s` satisfying `p`, if there is one.
      This is what "the first entry in table order" means throughout. */
  function FirstIndex<T>(s: seq<T>, p: T -> bool): (r: Option<nat>)
    ensures r.Some? ==> r.value < |s| && p(s[r.value])
    ensures r.Some? ==> forall j :: 0 <= j < r.value ==> !p(s[j])
    ensures r.None? <==> forall j :: 0 <= j < |s| ==> !p(s[j])
  {
    if |s| == 0 then None
    else if p(s[0]) then Some(0)
    else
      match FirstIndex(s[1..], p)
      case None => None
      case Some(i) => Some(i + 1)
  }
}
